=== FILE: README.md ===
# Owner-scoped note store

A Dafny model of the core of a small note-taking web application. Each
authenticated user creates, lists, edits, deletes and searches their own text
notes. The model keeps what the Django application actually decides:

- **Models** (`models.py`): the `Note` record has a title of at most 100
  characters and content of at most 500 characters. It has exactly one owner
  and carries creation and modification stamps.
- **Forms** (`forms.py`): the note form reads only `title` and `content`. Both
  are required and bounded. The search form has a single optional title of at
  most 100 characters.
- **Views** (`views.py`): the request handlers become pure functions on a
  `map<NoteId, Note>` store. The authenticated user is an explicit parameter.
  Every lookup is by (id, owner), so another user's note is reported exactly
  like an id that does not exist.
- **Requests** (`urls.py`): the routed requests as one step function. Sequences
  of requests from many users are modelled too. Across any such sequence the
  model proves that the stored-note invariant holds and that users stay
  isolated from one another.
- **Text**: the case-insensitive substring match behind `title__icontains`.
- **Ids**: allocation of a primary key that no stored note carries.

Each mutating handler returns `Reply(store, status)`. A status other than
`Created`, `Updated` or `Deleted` comes with the store it was given. The
contracts state this; it is not built into the types.

Clock readings are a parameter `now` of each mutating handler. The property
"the modification stamp is never before the creation stamp" is proved under
one assumption: the clock has not run backwards (`ClockNotBehind`).

In three places the model follows exactly what the code does:
- `note_delete` (views.py) deletes whatever the request method is.
- `Note` (models.py) declares no ordering, and `note_list` (views.py) adds
  none. The model returns the owner's notes as a map keyed by id, so it makes
  no ordering promise.
- `note_edit` (views.py) checks ownership before it validates. A foreign or
  missing id is therefore NotFound even when the submitted data is invalid.

## Model

| member | source | states |
|---|---|---|
| Models.Str | django/apps/note/models.py:11-12 | the string form of a note is its title (no contract of its own; its bounds are stated by StoreProperties.StoredStrBounded and its value after an edit by StoreProperties.EditThenGet) |
| Models.Valid | django/apps/note/models.py:5-6 | a title and content pair is acceptable exactly when both are non-empty, the title has at most 100 characters and the content at most 500 (no contract of its own; it is the reference predicate that Forms.CleanNoteForm, Views.Create and the stored-note invariant are stated against) |
| Text.Lower | django/apps/note/views.py:82 | an ASCII capital letter folds to the lower-case letter 32 code points above it; every other character is kept; no folded character is an ASCII capital |
| Text.LowerStr | django/apps/note/views.py:82 | folding a string keeps its length and folds each character in place |
| Text.ContainsIgnoreCase | django/apps/note/views.py:82 | a title matches a filter exactly when the folded filter occurs at some position of the folded title |
| Text.CaseInsensitiveExamples | django/apps/note/views.py:82 | "Note A" matches "note a" and "NOTE" but not "note b" |
| Views.Matching | django/apps/note/views.py:81-84 | the filtered notes are a subset of the given ones with unchanged values, and a given note is kept exactly when its title matches the filter case-insensitively |
| Text.Contains | django/apps/note/views.py:82 | true exactly when the filter occurs as a contiguous block at some position of the title (checked against an independent "occurs at i" definition, both directions) |
| Text.EmptyFilterMatches | django/apps/note/views.py:79-84 | the empty title filter matches every title |
| Text.TitleMatchesItself | django/apps/note/views.py:82 | every title contains itself case-insensitively |
| Text.MatchIgnoresFilterCase | django/apps/note/views.py:82 | matching gives the same answer for a filter and its lower-cased form |
| Text.LongFilterNeverMatches | django/apps/note/views.py:82 | a filter longer than the title never matches it |
| Ids.FreshId | django/apps/note/views.py:33-35 | the id given to a newly saved note is carried by no stored note |
| Forms.CleanNoteForm | django/apps/note/forms.py:4-7 | the form is valid exactly when the title has 1..100 characters and the content 1..500; the cleaned values are the submitted ones; on rejection each field error is reported exactly when its own condition holds, and at least one is |
| Forms.NoteFormReadsOnlyTitleAndContent | django/apps/note/forms.py:7 | adding, changing or removing any submitted field other than title and content does not change the form's result, so no submitted field sets the owner |
| Forms.CleanSearchForm | django/apps/note/forms.py:9-10 | the form is unbound exactly when the query is empty; it is valid exactly when bound and the title (absent reads as empty) has at most 100 characters; the cleaned title is the submitted one |
| Forms.SearchTitleOptional | django/apps/note/forms.py:10 | a bound search form without a title is valid with the empty filter |
| Views.List | django/apps/note/views.py:20 | the list holds exactly the notes whose owner is the requesting user, unchanged |
| Views.Get | django/apps/note/views.py:50 | lookup by (id, owner) finds a note exactly when the id is in the user's list, and returns that note |
| Views.Create | django/apps/note/views.py:30-36 | an invalid form leaves the store unchanged and reports the form's errors; a valid one inserts exactly one note under an unused id, owned by the requester, with the submitted title and content and both stamps set to now; no other note changes |
| Views.Edit | django/apps/note/views.py:50-56 | a missing or foreign id is NotFound with the store unchanged; an invalid form is Invalid with the store unchanged; otherwise only the title, content and modification stamp of that note change, and its owner, creation stamp, the set of ids and every other note are kept |
| Views.Delete | django/apps/note/views.py:70-72 | a missing or foreign id is NotFound with the store unchanged; otherwise exactly that id is removed and every other note is kept |
| Views.Search | django/apps/note/views.py:76-87 | the result is always within the user's list; with a valid form it is exactly the user's notes whose title contains the filter case-insensitively and echoes the filter; with an unbound or invalid form it is the full list and echoes the empty string |
| StoreProperties.ListIsolation | django/apps/note/views.py:20 | a list never holds another user's note, and two users' lists share no id |
| StoreProperties.NotFoundIndistinguishable | django/apps/note/views.py:50 | lookup, edit and delete of a foreign id give the very same reply as those of a missing id, and leave the store unchanged |
| StoreProperties.CreateIsolation | django/apps/note/views.py:31-35 | a create by one user leaves every other user's list unchanged |
| StoreProperties.EditIsolation | django/apps/note/views.py:50-56 | an edit by one user leaves every other user's list unchanged |
| StoreProperties.DeleteIsolation | django/apps/note/views.py:70-71 | a delete by one user leaves every other user's list unchanged |
| StoreProperties.CreateAddsOneOwnedNote | django/apps/note/views.py:31-35 | a valid create adds exactly one new entry to the creator's list, with the submitted fields, and the owned count grows by one |
| StoreProperties.EditThenGet | django/apps/note/views.py:52-55 | after a valid edit by the owner, lookup returns the note with the new title and content and the new stamp, its string form is the new title, and the owner's set of ids is unchanged |
| StoreProperties.DeleteThenNotFound | django/apps/note/views.py:70-71 | after the owner deletes a note, lookup, edit and delete of that id are NotFound for every user, and the owner's list lost exactly that note (count down by one) |
| StoreProperties.CreatePreservesInv | django/apps/note/models.py:5-9 | create keeps every stored note within the field bounds with creation stamp not after modification stamp, and keeps owners and creation stamps of existing notes |
| StoreProperties.EditPreservesInv | django/apps/note/models.py:8-9 | under a clock that has not run backwards, edit keeps the same invariant, and never changes an owner or a creation stamp |
| StoreProperties.DeletePreservesInv | django/apps/note/views.py:70-71 | delete keeps the same invariant and the owners and creation stamps of the remaining notes |
| StoreProperties.StoredStrBounded | django/apps/note/models.py:11-12 | the string form of a stored note is its title, so it is non-empty and at most 100 characters |
| StoreProperties.EditAdvancesStamp | django/apps/note/models.py:9 | under a clock that has not run backwards, an edit never moves the modification stamp back, and moves it forward when time has passed |
| StoreProperties.EmptyFilterSearchIsList | django/apps/note/views.py:78-84 | a bound search with an empty or absent title shows exactly the full list |
| StoreProperties.SearchFindsOwnTitle | django/apps/note/views.py:81-84 | searching with any spelling of the title of one of the user's own notes that differs from it only in letter case finds that note |
| Requests.Handle | django/apps/note/urls.py:6-12 | list and search never change the store; a form page requested without POST changes nothing: a GET of the new-note page is shown, and so is the edit page of an owned note; edit and delete of an id not owned are NotFound with the store unchanged; a valid POST to new gives the old store plus one note under an unused id, owned by the requester, with the submitted fields and both stamps at now; a valid POST edit of an owned note gives the old store with only that note's title, content and modification stamp replaced; an invalid POST to new or edit reports the form's errors with the store unchanged; a delete of an owned note gives the old store without exactly that id |
| Requests.HandleIsolation | django/apps/note/views.py:20-72 | any request by one user leaves every other user's list unchanged |
| Requests.HandlePreservesInv | django/apps/note/models.py:4-9 | any request keeps the stored-note invariant, the owners and the creation stamps, under a clock that has not run backwards |
| Requests.RunPreservesInv | django/apps/note/models.py:5-9 | any sequence of requests by any users, with clock readings that never go backwards, keeps every stored note within its field bounds and its creation stamp not after its modification stamp |
| Requests.RunIsolation | django/apps/note/views.py:20-71 | whatever sequence of requests other users make, a user's list is exactly as it was |
| Scenarios.NoteFormExamples | django/apps/note/tests.py:96-150 | the form accepts ("Note A", "Content A") and rejects an empty title, empty content, a 201-character title and a 6000-character content, each with the matching field error |
| Scenarios.CreateBesideExistingScenario | django/apps/note/tests.py:24-34 | a user owning one note who creates "Note C" beside another user's note then owns two notes, one of them "Note C", and the other user's list is unchanged |
| Scenarios.CreateEditForeignScenario | django/apps/note/tests.py:41-47 | an edit of the content by the note's owner is seen by the next lookup, with a later stamp; the lemma also shows a second user's edit and delete of that id are NotFound with the store unchanged, a case the tests do not exercise |
| Scenarios.EditPageNotFoundScenario | django/apps/note/tests.py:49-65 | the edit page of id 999 when it does not exist, and of another user's note, is NotFound with the store unchanged |
| Scenarios.DeleteThenEditPageScenario | django/apps/note/tests.py:67-94 | after the owner deletes a note, the owner's request for its edit page is NotFound |

## Left out

- HTTP handling, redirects, template rendering and the `index` view are left out. They only present results.
- Authentication is left out. The `login_required` check and the middleware are replaced by an explicit user parameter.
- URL routing is modelled only as the `Request` variants. The path patterns carry no behaviour.
- Database internals are left out: transactions, cascading deletes of users and migrations.
- Ids.FreshId: the database's own primary-key scheme is not modelled. The model takes the least unused id, so a deleted id may be handed out again and a new id may be smaller than the stored ones. Which note is last by id after a create (checked at tests.py:34) is therefore not modelled. The other contracts rely only on the id being unused.
- Real date-times are replaced by natural-number clock readings. Django reads the clock separately for `created_at` and `updated_at` when a note is created. The model gives both the same reading.
- Framework form behaviour is left out: whitespace stripping of submitted text, the null-character validator, and repeated keys in a query string. As a result, a title of only spaces is accepted by the model but rejected by the framework.
- Text.Lower: case folding covers the ASCII letters only, as SQL `LIKE` does on the default database backend. Unicode case folding, which other backends apply, is not modelled.
- Views.List: the order of the notes on the page is not modelled. The source declares no ordering.
- StoreProperties.CreatePreservesInv: the invariant covers only notes saved through the views. A note inserted directly through the ORM, as the test fixtures do, bypasses form validation.
- Owner and creation-stamp stability are proved one request at a time. They are not proved across a whole sequence, because an id can be reused after a delete.

=== FILE: forms.dfy ===
/**
 The two forms: the note form, which reads only `title` and `content` from the
 submitted data, and the search form, whose only field is an optional title of
 at most 100 characters.
 */
module Forms {
  import opened Models

  /** Submitted form data (the POST or GET parameters), field name to value. */
  type Submission = map<string, string>

  const TitleKey: string := "title"
  const ContentKey: string := "content"

  /** The value submitted for `key`; a missing field reads as the empty string. */
  function Field(data: Submission, key: string): string
  {
    if key in data then data[key] else ""
  }

  /** A field-level validation message. */
  datatype FieldError = TitleRequired | TitleTooLong | ContentRequired | ContentTooLong

  datatype NoteFormResult =
    | Cleaned(title: string, content: string)
    | Rejected(errors: set<FieldError>)

  /** Errors of one required text field: empty is "required", too long is "too long". */
  function CharFieldErrors(value: string, maxLength: nat, required: FieldError, tooLong: FieldError): set<FieldError>
  {
    if |value| == 0 then {required}
    else if |value| > maxLength then {tooLong}
    else {}
  }

  /** Validation of the note form. */
  function CleanNoteForm(data: Submission): (r: NoteFormResult)
    ensures r.Cleaned? <==> Valid(Field(data, TitleKey), Field(data, ContentKey))
    ensures r.Cleaned? ==> r.title == Field(data, TitleKey) && r.content == Field(data, ContentKey)
    ensures r.Rejected? ==> r.errors != {}
    ensures r.Rejected? ==>
      && (TitleRequired in r.errors <==> |Field(data, TitleKey)| == 0)
      && (TitleTooLong in r.errors <==> |Field(data, TitleKey)| > MaxTitleLength)
      && (ContentRequired in r.errors <==> |Field(data, ContentKey)| == 0)
      && (ContentTooLong in r.errors <==> |Field(data, ContentKey)| > MaxContentLength)
  {
    var title := Field(data, TitleKey);
    var content := Field(data, ContentKey);
    var errors := CharFieldErrors(title, MaxTitleLength, TitleRequired, TitleTooLong)
                + CharFieldErrors(content, MaxContentLength, ContentRequired, ContentTooLong);
    if errors == {} then Cleaned(title, content) else Rejected(errors)
  }

  /** The note form looks at no field but `title` and `content`: in particular no
      submitted field can set the owner. */
  lemma NoteFormReadsOnlyTitleAndContent(data: Submission, key: string, value: string)
    requires key != TitleKey && key != ContentKey
    ensures CleanNoteForm(data[key := value]) == CleanNoteForm(data)
    ensures CleanNoteForm(data - {key}) == CleanNoteForm(data)
  {
  }

  datatype SearchFormResult =
    | Unbound
    | SearchRejected
    | SearchCleaned(title: string)

  /** Validation of the search form. An empty query string leaves the form unbound
      (and so not valid); otherwise the optional title must not exceed 100 characters. */
  function CleanSearchForm(query: Submission): (r: SearchFormResult)
    ensures r.Unbound? <==> query == map[]
    ensures r.SearchCleaned? <==> query != map[] && |Field(query, TitleKey)| <= MaxTitleLength
    ensures r.SearchCleaned? ==> r.title == Field(query, TitleKey)
  {
    if query == map[] then Unbound
    else
      var title := Field(query, TitleKey);
      if |title| <= MaxTitleLength then SearchCleaned(title) else SearchRejected
  }

  /** The search title is optional: a bound form without it is valid, with the empty filter. */
  lemma SearchTitleOptional(query: Submission)
    requires query != map[] && TitleKey !in query
    ensures CleanSearchForm(query) == SearchCleaned("")
  {
  }
}

=== FILE: ids.dfy ===
/**
 Allocation of note ids. The database hands out a primary key that no stored
 note carries; this module picks the least such key, and the rest of the model
 relies only on it being unused.
 */
module Ids {

  /** The set {0, ..., n - 1}. */
  function Range(n: nat): (r: set<nat>)
    ensures |r| == n
    ensures forall j: nat :: j in r <==> j < n
  {
    if n == 0 then {} else Range(n - 1) + {n - 1}
  }

  /** A set that holds every key below `n` has at least `n` elements. */
  lemma {:induction false} PrefixBound(keys: set<nat>, n: nat)
    requires forall j :: 0 <= j < n ==> j in keys
    ensures n <= |keys|
  {
    var r := Range(n);
    assert r <= keys;
    SubsetCard(r, keys);
  }

  lemma {:induction false} SubsetCard(a: set<nat>, b: set<nat>)
    requires a <= b
    ensures |a| <= |b|
    decreases |a|
  {
    if a != {} {
      var x :| x in a;
      SubsetCard(a - {x}, b - {x});
    }
  }

  /** The least key at or above `k` that is not in `keys`. */
  function FirstFree(keys: set<nat>, k: nat): (id: nat)
    requires forall j :: 0 <= j < k ==> j in keys
    ensures k <= id && id !in keys
    ensures forall j :: 0 <= j < id ==> j in keys
    decreases |keys| - k
  {
    if k !in keys then k
    else
      PrefixBound(keys, k + 1);
      FirstFree(keys, k + 1)
  }

  /** The least key that no stored note carries. */
  function FreshId(keys: set<nat>): (id: nat)
    ensures id !in keys
    ensures forall j :: 0 <= j < id ==> j in keys
  {
    FirstFree(keys, 0)
  }
}

=== FILE: models.dfy ===
/**
 The note record: a title of at most 100 characters, content of at most 500
 characters, exactly one owner, and creation and modification stamps.
 Lengths count characters (Unicode scalar values), as the framework does.
 */
module Models {

  /** Opaque identity of an authenticated user. */
  type UserId = nat

  /** A reading of the (abstract) clock. */
  type Timestamp = nat

  const MaxTitleLength: nat := 100
  const MaxContentLength: nat := 500

  /** A stored note. Its id is the key it is stored under. */
  datatype Note = Note(
    title: string,
    content: string,
    owner: UserId,
    createdAt: Timestamp,
    updatedAt: Timestamp)

  /** The string form of a note. */
  function Str(n: Note): string
  {
    n.title
  }

  /** Both fields are required (non-empty) and within their maximum lengths. */
  predicate Valid(title: string, content: string)
  {
    && 1 <= |title| <= MaxTitleLength
    && 1 <= |content| <= MaxContentLength
  }

  /** What every note saved through the views satisfies. */
  predicate WellFormed(n: Note)
  {
    && Valid(n.title, n.content)
    && n.createdAt <= n.updatedAt
  }
}

=== FILE: properties.dfy ===
/**
 Properties that relate the store operations to one another: ownership
 isolation, the single Not-Found outcome, frames ("nothing else changes"),
 the stored-note invariant, and search as a filtered list.
 */
module StoreProperties {
  import opened Models
  import opened Forms
  import opened Text
  import opened Views

  /** Every stored note is well formed. */
  predicate Inv(s: Store)
  {
    forall id :: id in s ==> WellFormed(s[id])
  }

  /** No stamp in the store is later than `now`: the clock has not run backwards. */
  predicate ClockNotBehind(s: Store, now: Timestamp)
  {
    forall id :: id in s ==> s[id].updatedAt <= now
  }

  /** Owners and creation stamps of the notes that survive are those they had. */
  predicate OwnersAndCreationKept(s: Store, s': Store)
  {
    forall id :: id in s && id in s' ==>
      s'[id].owner == s[id].owner && s'[id].createdAt == s[id].createdAt
  }

  // ---------------------------------------------------------------------------
  // Ownership isolation

  /** A user's list holds only that user's notes, and two users' lists are disjoint. */
  lemma ListIsolation(s: Store, u: UserId, v: UserId)
    ensures forall id :: id in List(s, u) ==> List(s, u)[id].owner == u
    ensures u != v ==> List(s, u).Keys !! List(s, v).Keys
  {
  }

  /** A note of another user and a note that does not exist give the same
      outcome to lookup, edit and delete, and the store is left as it was. */
  lemma NotFoundIndistinguishable(s: Store, u: UserId, foreign: NoteId, missing: NoteId,
                                  data: Submission, now: Timestamp)
    requires foreign in s && s[foreign].owner != u
    requires missing !in s
    ensures Get(s, u, foreign) == Get(s, u, missing) == Missing
    ensures Edit(s, u, foreign, data, now) == Edit(s, u, missing, data, now) == Reply(s, NotFound)
    ensures Delete(s, u, foreign) == Delete(s, u, missing) == Reply(s, NotFound)
  {
  }

  /** A create by `u` leaves every other user's list unchanged. */
  lemma CreateIsolation(s: Store, u: UserId, v: UserId, data: Submission, now: Timestamp)
    requires u != v
    ensures List(Create(s, u, data, now).store, v) == List(s, v)
  {
  }

  /** An edit by `u` leaves every other user's list unchanged. */
  lemma EditIsolation(s: Store, u: UserId, v: UserId, id: NoteId, data: Submission, now: Timestamp)
    requires u != v
    ensures List(Edit(s, u, id, data, now).store, v) == List(s, v)
  {
  }

  /** A delete by `u` leaves every other user's list unchanged. */
  lemma DeleteIsolation(s: Store, u: UserId, v: UserId, id: NoteId)
    requires u != v
    ensures List(Delete(s, u, id).store, v) == List(s, v)
  {
  }

  // ---------------------------------------------------------------------------
  // Create, edit and delete seen through the user's list

  /** A valid create adds exactly one note to the creator's list, owned by the
      creator and holding the submitted title and content. */
  lemma CreateAddsOneOwnedNote(s: Store, u: UserId, data: Submission, now: Timestamp)
    requires Valid(Field(data, TitleKey), Field(data, ContentKey))
    ensures Create(s, u, data, now).status.Created?
    ensures var r := Create(s, u, data, now);
      && r.status.id !in List(s, u)
      && List(r.store, u) == List(s, u)[r.status.id := Note(Field(data, TitleKey), Field(data, ContentKey), u, now, now)]
      && |List(r.store, u)| == |List(s, u)| + 1
      && Get(r.store, u, r.status.id).Found?
  {
  }

  /** A valid edit by the owner is seen by the next lookup, and the note's string
      form becomes the submitted title. */
  lemma EditThenGet(s: Store, u: UserId, id: NoteId, data: Submission, now: Timestamp)
    requires Get(s, u, id).Found?
    requires Valid(Field(data, TitleKey), Field(data, ContentKey))
    ensures var r := Edit(s, u, id, data, now);
      && Get(r.store, u, id) == Found(s[id].(title := Field(data, TitleKey),
                                              content := Field(data, ContentKey),
                                              updatedAt := now))
      && Str(r.store[id]) == Field(data, TitleKey)
      && List(r.store, u).Keys == List(s, u).Keys
  {
  }

  /** After the owner deletes a note, no user finds it, editing it is NotFound,
      and the owner's list lost exactly that note. */
  lemma DeleteThenNotFound(s: Store, u: UserId, id: NoteId, w: UserId, data: Submission, now: Timestamp)
    requires Get(s, u, id).Found?
    ensures var r := Delete(s, u, id);
      && Get(r.store, w, id) == Missing
      && Edit(r.store, w, id, data, now) == Reply(r.store, NotFound)
      && Delete(r.store, w, id) == Reply(r.store, NotFound)
      && List(r.store, u) == List(s, u) - {id}
      && |List(r.store, u)| == |List(s, u)| - 1
  {
  }

  // ---------------------------------------------------------------------------
  // The stored-note invariant and the stamps

  /** Create keeps every stored note well formed, keeps owners and creation
      stamps, and does not put a stamp later than `now`. */
  lemma CreatePreservesInv(s: Store, u: UserId, data: Submission, now: Timestamp)
    requires Inv(s) && ClockNotBehind(s, now)
    ensures var s' := Create(s, u, data, now).store;
      Inv(s') && ClockNotBehind(s', now) && OwnersAndCreationKept(s, s')
  {
  }

  /** Edit keeps every stored note well formed when the clock has not run
      backwards: the fresh modification stamp is not before the creation stamp. */
  lemma EditPreservesInv(s: Store, u: UserId, id: NoteId, data: Submission, now: Timestamp)
    requires Inv(s) && ClockNotBehind(s, now)
    ensures var s' := Edit(s, u, id, data, now).store;
      Inv(s') && ClockNotBehind(s', now) && OwnersAndCreationKept(s, s')
  {
  }

  /** Delete keeps the invariant: it only removes. */
  lemma DeletePreservesInv(s: Store, u: UserId, id: NoteId, now: Timestamp)
    requires Inv(s) && ClockNotBehind(s, now)
    ensures var s' := Delete(s, u, id).store;
      Inv(s') && ClockNotBehind(s', now) && OwnersAndCreationKept(s, s')
  {
  }

  /** The string form of every stored note is its title: never empty and at
      most 100 characters. */
  lemma StoredStrBounded(s: Store, id: NoteId)
    requires Inv(s) && id in s
    ensures Str(s[id]) == s[id].title
    ensures 1 <= |Str(s[id])| <= MaxTitleLength
  {
  }

  /** Under a clock that has not run backwards, an edit never moves the
      modification stamp back, and moves it forward when time has passed. */
  lemma EditAdvancesStamp(s: Store, u: UserId, id: NoteId, data: Submission, now: Timestamp)
    requires ClockNotBehind(s, now)
    requires Get(s, u, id).Found?
    requires Valid(Field(data, TitleKey), Field(data, ContentKey))
    ensures var s' := Edit(s, u, id, data, now).store;
      && s[id].updatedAt <= s'[id].updatedAt
      && (s[id].updatedAt < now ==> s[id].updatedAt < s'[id].updatedAt)
  {
  }

  // ---------------------------------------------------------------------------
  // Search

  /** A valid search form with an empty (or absent) title shows the full list. */
  lemma EmptyFilterSearchIsList(s: Store, u: UserId, query: Submission)
    requires query != map[]
    requires Field(query, TitleKey) == ""
    ensures Search(s, u, query) == SearchPage("", List(s, u))
  {
  }

  /** A search by the exact title of one of the user's notes finds that note,
      whatever the case of the letters the user typed. */
  lemma SearchFindsOwnTitle(s: Store, u: UserId, id: NoteId, query: Submission)
    requires id in List(s, u)
    requires LowerStr(Field(query, TitleKey)) == LowerStr(s[id].title)
    requires |s[id].title| <= MaxTitleLength
    ensures id in Search(s, u, query).notes
  {
    var f := Field(query, TitleKey);
    assert |f| == |LowerStr(f)| == |LowerStr(s[id].title)| == |s[id].title|;
    assert Occurs(LowerStr(f), LowerStr(s[id].title), 0);
  }
}

=== FILE: requests.dfy ===
/**
 The routed requests (list, new, edit, delete, search) as one step function on
 the store, and sequences of such requests from possibly many users. A form
 page requested without POST is only rendered; the edit page still looks the
 note up by (id, owner) first. Delete does not look at the request method.
 */
module Requests {
  import opened Models
  import opened Forms
  import opened Views
  import opened StoreProperties

  datatype Request =
    | ListNotes
    | NewNote(post: bool, data: Submission)
    | EditNote(post: bool, id: NoteId, data: Submission)
    | DeleteNote(id: NoteId)
    | SearchNotes(query: Submission)

  /** One request by user `u`, handled at clock reading `now`. */
  function Handle(s: Store, u: UserId, req: Request, now: Timestamp): (r: Reply)
    ensures !r.status.Created? && !r.status.Updated? && !r.status.Deleted? ==> r.store == s
    ensures req.ListNotes? || req.SearchNotes? ==> r == Reply(s, Shown)
    ensures req.EditNote? && Get(s, u, req.id).Missing? ==> r == Reply(s, NotFound)
    ensures req.DeleteNote? && Get(s, u, req.id).Missing? ==> r == Reply(s, NotFound)
    ensures (req.NewNote? || req.EditNote?) && !req.post ==> r.store == s
    ensures req.NewNote? && !req.post ==> r == Reply(s, Shown)
    ensures req.NewNote? && req.post && Valid(Field(req.data, TitleKey), Field(req.data, ContentKey)) ==>
      && r.status.Created?
      && r.status.id !in s
      && r.store == s[r.status.id := Note(Field(req.data, TitleKey), Field(req.data, ContentKey), u, now, now)]
    ensures req.NewNote? && req.post && !Valid(Field(req.data, TitleKey), Field(req.data, ContentKey)) ==>
      r == Reply(s, Invalid(CleanNoteForm(req.data).errors))
    ensures req.EditNote? && req.post && Get(s, u, req.id).Found?
            && Valid(Field(req.data, TitleKey), Field(req.data, ContentKey)) ==>
      r == Reply(s[req.id := s[req.id].(title := Field(req.data, TitleKey),
                                        content := Field(req.data, ContentKey),
                                        updatedAt := now)], Updated)
    ensures req.EditNote? && req.post && Get(s, u, req.id).Found?
            && !Valid(Field(req.data, TitleKey), Field(req.data, ContentKey)) ==>
      r == Reply(s, Invalid(CleanNoteForm(req.data).errors))
    ensures req.EditNote? && !req.post && Get(s, u, req.id).Found? ==> r == Reply(s, Shown)
    ensures req.DeleteNote? && Get(s, u, req.id).Found? ==> r == Reply(s - {req.id}, Deleted)
  {
    match req
    case ListNotes => Reply(s, Shown)
    case NewNote(post, data) =>
      if post then Create(s, u, data, now) else Reply(s, Shown)
    case EditNote(post, id, data) =>
      if post then Edit(s, u, id, data, now)
      else if Get(s, u, id).Found? then Reply(s, Shown)
      else Reply(s, NotFound)
    case DeleteNote(id) => Delete(s, u, id)
    case SearchNotes(_) => Reply(s, Shown)
  }

  /** A request by one user leaves every other user's notes as they were. */
  lemma HandleIsolation(s: Store, u: UserId, v: UserId, req: Request, now: Timestamp)
    requires u != v
    ensures List(Handle(s, u, req, now).store, v) == List(s, v)
  {
  }

  /** Every request keeps the stored-note invariant, owners and creation stamps,
      provided the clock has not run backwards. */
  lemma HandlePreservesInv(s: Store, u: UserId, req: Request, now: Timestamp)
    requires Inv(s) && ClockNotBehind(s, now)
    ensures var s' := Handle(s, u, req, now).store;
      Inv(s') && ClockNotBehind(s', now) && OwnersAndCreationKept(s, s')
  {
  }

  /** A request made by `user` when the clock read `at`. */
  datatype Event = Event(user: UserId, req: Request, at: Timestamp)

  /** The store after handling `events` in order. */
  function Run(s: Store, events: seq<Event>): Store
    decreases |events|
  {
    if events == [] then s
    else Run(Handle(s, events[0].user, events[0].req, events[0].at).store, events[1..])
  }

  /** The clock readings of `events` never go backwards. */
  predicate Monotone(events: seq<Event>)
  {
    forall i, j :: 0 <= i < j < |events| ==> events[i].at <= events[j].at
  }

  /** Every clock reading in `events` is at or after every stamp in `s`. */
  predicate StartsAfter(s: Store, events: seq<Event>)
  {
    forall i :: 0 <= i < |events| ==> ClockNotBehind(s, events[i].at)
  }

  /** Under a monotone clock, any sequence of requests by any users keeps every
      stored note well formed: titles and content within bounds, and the
      modification stamp never before the creation stamp. */
  lemma {:induction false} RunPreservesInv(s: Store, events: seq<Event>)
    requires Inv(s)
    requires Monotone(events) && StartsAfter(s, events)
    ensures Inv(Run(s, events))
    decreases |events|
  {
    if events != [] {
      var e := events[0];
      var s' := Handle(s, e.user, e.req, e.at).store;
      HandlePreservesInv(s, e.user, e.req, e.at);
      var rest := events[1..];
      forall i | 0 <= i < |rest|
        ensures ClockNotBehind(s', rest[i].at)
      {
        assert rest[i] == events[i + 1];
        forall id | id in s'
          ensures s'[id].updatedAt <= rest[i].at
        {
          assert s'[id].updatedAt <= e.at <= events[i + 1].at;
        }
      }
      assert Monotone(rest) by {
        forall i, j | 0 <= i < j < |rest|
          ensures rest[i].at <= rest[j].at
        {
          assert rest[i] == events[i + 1] && rest[j] == events[j + 1];
        }
      }
      RunPreservesInv(s', rest);
    }
  }

  /** Whatever other users do, a user's notes are exactly as that user left them. */
  lemma {:induction false} RunIsolation(s: Store, events: seq<Event>, v: UserId)
    requires forall i :: 0 <= i < |events| ==> events[i].user != v
    ensures List(Run(s, events), v) == List(s, v)
    decreases |events|
  {
    if events != [] {
      var e := events[0];
      HandleIsolation(s, e.user, v, e.req, e.at);
      var rest := events[1..];
      assert forall i :: 0 <= i < |rest| ==> rest[i] == events[i + 1];
      RunIsolation(Handle(s, e.user, e.req, e.at).store, rest, v);
    }
  }
}

=== FILE: scenarios.dfy ===
/**
 The concrete cases the repository's tests exercise, stated on the model.
 */
module Scenarios {
  import opened Models
  import opened Forms
  import opened Views
  import opened Requests
  import opened StoreProperties

  function NoteData(title: string, content: string): Submission
  {
    map[TitleKey := title, ContentKey := content]
  }

  /** The note form accepts ("Note A", "Content A") and rejects an empty title,
      empty content, a 201-character title and a 6000-character content. */
  lemma NoteFormExamples()
    ensures CleanNoteForm(NoteData("Note A", "Content A")) == Cleaned("Note A", "Content A")
    ensures CleanNoteForm(NoteData("", "Content B")) == Rejected({TitleRequired})
    ensures CleanNoteForm(NoteData("Title Test", "")) == Rejected({ContentRequired})
    ensures CleanNoteForm(NoteData(seq(201, _ => 'A'), "Content long")) == Rejected({TitleTooLong})
    ensures CleanNoteForm(NoteData("Test Title", seq(6000, _ => 'C'))) == Rejected({ContentTooLong})
  {
  }

  /** An owner creates "Note A", then edits its content; a second user's edit
      and delete of the same id are NotFound and leave the note unchanged. */
  lemma CreateEditForeignScenario(owner: UserId, other: UserId)
    requires owner != other
    ensures var created := Create(map[], owner, NoteData("Note A", "Content A"), 1);
      var id := created.status.id;
      var edited := Edit(created.store, owner, id, NoteData("Note A", "Updated"), 2);
      && created.status.Created?
      && |List(created.store, owner)| == 1
      && List(created.store, owner)[id].title == "Note A"
      && edited.status == Updated
      && Get(edited.store, owner, id).Found?
      && Get(edited.store, owner, id).note.content == "Updated"
      && Get(edited.store, owner, id).note.updatedAt > Get(created.store, owner, id).note.updatedAt
      && Edit(edited.store, other, id, NoteData("X", "Y"), 3) == Reply(edited.store, NotFound)
      && Delete(edited.store, other, id) == Reply(edited.store, NotFound)
  {
    var data := NoteData("Note A", "Content A");
    assert Field(data, TitleKey) == "Note A" && Field(data, ContentKey) == "Content A";
    var created := Create(map[], owner, data, 1);
    var id := created.status.id;
    assert List(created.store, owner).Keys == {id};
    var data2 := NoteData("Note A", "Updated");
    assert Field(data2, TitleKey) == "Note A" && Field(data2, ContentKey) == "Updated";
  }

  /** Deleting a note and then requesting its edit page is NotFound, for the
      former owner too. */
  lemma DeleteThenEditPageScenario(s: Store, owner: UserId, id: NoteId, at: Timestamp)
    requires id in s && s[id].owner == owner
    ensures var events := [Event(owner, DeleteNote(id), at)];
      Handle(Run(s, events), owner, EditNote(false, id, map[]), at) == Reply(Run(s, events), NotFound)
  {
  }

  /** A user who already owns one note creates "Note C" beside another user's
      note: the user now owns two notes, one of them the new "Note C", and the
      other user's list is unchanged. */
  lemma CreateBesideExistingScenario(user1: UserId, user2: UserId, id1: NoteId, id2: NoteId, at: Timestamp)
    requires user1 != user2 && id1 != id2
    ensures var s := map[id1 := Note("Note A", "Content A", user1, 0, 0),
                         id2 := Note("Note B", "Content B", user2, 0, 0)];
      var r := Handle(s, user1, NewNote(true, NoteData("Note C", "Content C")), at);
      && r.status.Created?
      && |List(r.store, user1)| == 2
      && List(r.store, user1)[r.status.id].title == "Note C"
      && List(r.store, user2) == List(s, user2)
  {
    var s := map[id1 := Note("Note A", "Content A", user1, 0, 0),
                 id2 := Note("Note B", "Content B", user2, 0, 0)];
    var data := NoteData("Note C", "Content C");
    assert Field(data, TitleKey) == "Note C" && Field(data, ContentKey) == "Content C";
    assert List(s, user1).Keys == {id1};
    CreateAddsOneOwnedNote(s, user1, data, at);
  }

  /** The edit page of an id that does not exist, and of another user's note,
      is NotFound and changes nothing. */
  lemma EditPageNotFoundScenario(s: Store, user1: UserId, foreign: NoteId, at: Timestamp)
    requires 999 !in s
    requires foreign in s && s[foreign].owner != user1
    ensures Handle(s, user1, EditNote(false, 999, map[]), at) == Reply(s, NotFound)
    ensures Handle(s, user1, EditNote(false, foreign, map[]), at) == Reply(s, NotFound)
  {
  }
}

=== FILE: text.dfy ===
/**
 Case-insensitive substring matching, the semantics of the `title__icontains`
 lookup the note search filters by. Case folding covers the ASCII letters only,
 which is what SQL `LIKE` does on the default database backend.
 */
module Text {

  /** Folds one character: 'A'..'Z' become 'a'..'z', every other character is kept. */
  function Lower(c: char): (d: char)
    ensures !('A' <= d <= 'Z')
    ensures !('A' <= c <= 'Z') ==> d == c
    ensures 'A' <= c <= 'Z' ==> d as int == c as int + 32
  {
    if 'A' <= c <= 'Z' then (c as int + 32) as char else c
  }

  /** Folds a whole string, character by character. */
  function LowerStr(s: string): (r: string)
    ensures |r| == |s|
    ensures forall i :: 0 <= i < |s| ==> r[i] == Lower(s[i])
  {
    if s == [] then [] else [Lower(s[0])] + LowerStr(s[1..])
  }

  /** Folding twice is folding once. */
  lemma LowerStrIdempotent(s: string)
    ensures LowerStr(LowerStr(s)) == LowerStr(s)
  {
  }

  /** `p` occurs in `s` starting at position `i`. */
  predicate Occurs(p: string, s: string, i: int)
  {
    0 <= i && i + |p| <= |s| && s[i..i + |p|] == p
  }

  lemma OccursShift(p: string, s: string, i: int)
    requires |s| > 0 && 0 <= i
    ensures Occurs(p, s[1..], i) <==> Occurs(p, s, i + 1)
  {
  }

  /** When `p` does not start `s`, it occurs in `s` exactly when it occurs in the tail. */
  lemma {:induction false} ContainsStep(p: string, s: string)
    requires |s| > 0
    requires !Occurs(p, s, 0)
    ensures (exists i :: Occurs(p, s, i)) <==> (exists i :: Occurs(p, s[1..], i))
  {
    if i :| Occurs(p, s, i) {
      assert i != 0;
      OccursShift(p, s, i - 1);
    }
    if i :| Occurs(p, s[1..], i) {
      OccursShift(p, s, i);
      assert Occurs(p, s, i + 1);
    }
  }

  /** `s` contains `p` as a contiguous substring. */
  function Contains(s: string, p: string): (b: bool)
    ensures b <==> exists i :: Occurs(p, s, i)
    decreases |s|
  {
    if Occurs(p, s, 0) then true
    else if |s| == 0 then false
    else
      ContainsStep(p, s);
      Contains(s[1..], p)
  }

  /** `title` contains `filter`, ignoring ASCII case. */
  predicate ContainsIgnoreCase(title: string, filter: string): (b: bool)
    ensures b <==> exists i :: Occurs(LowerStr(filter), LowerStr(title), i)
  {
    var folded, pattern := LowerStr(title), LowerStr(filter);
    assert forall i :: Occurs(pattern, folded, i) == Occurs(LowerStr(filter), LowerStr(title), i);
    Contains(folded, pattern)
  }

  /** Letter case is ignored on both sides: "Note A" contains "note a" and "NOTE",
      and does not contain "note b". */
  lemma CaseInsensitiveExamples()
    ensures ContainsIgnoreCase("Note A", "note a")
    ensures ContainsIgnoreCase("Note A", "NOTE")
    ensures !ContainsIgnoreCase("Note A", "note b")
  {
    assert LowerStr("Note A") == "note a";
    assert LowerStr("NOTE") == "note";
    assert LowerStr("note b") == "note b";
    assert Occurs(LowerStr("note a"), LowerStr("Note A"), 0);
    assert Occurs(LowerStr("NOTE"), LowerStr("Note A"), 0);
  }

  /** The empty filter matches every title. */
  lemma EmptyFilterMatches(title: string)
    ensures ContainsIgnoreCase(title, "")
  {
  }

  /** Every title matches itself, so a search by a note's exact title finds it. */
  lemma TitleMatchesItself(title: string)
    ensures ContainsIgnoreCase(title, title)
  {
  }

  /** Matching ignores the case of the filter. */
  lemma MatchIgnoresFilterCase(title: string, filter: string)
    ensures ContainsIgnoreCase(title, filter) == ContainsIgnoreCase(title, LowerStr(filter))
  {
    LowerStrIdempotent(filter);
  }

  /** A filter longer than the title never matches it. */
  lemma LongFilterNeverMatches(title: string, filter: string)
    requires |filter| > |title|
    ensures !ContainsIgnoreCase(title, filter)
  {
  }
}

=== FILE: views.dfy ===
/**
 The request handlers as operations on an owner-scoped store. The
 authenticated user is an explicit parameter of every operation, and every
 lookup is by (id, owner): a note of another user is reported exactly like a
 note that does not exist.
 */
module Views {
  import opened Models
  import opened Forms
  import opened Text
  import Ids

  type NoteId = nat

  /** The note table: id to note. */
  type Store = map<NoteId, Note>

  /** Outcome of a request that may change the store. */
  datatype Status =
    | Shown                              // a page or form was rendered, nothing saved
    | Created(id: NoteId)                // a new note was saved under `id`
    | Updated                            // the note was saved with new title and content
    | Deleted                            // the note was removed
    | NotFound                           // no note with that id is owned by the user
    | Invalid(errors: set<FieldError>)   // the form was rejected, nothing saved

  /** The store after a request, and the request's outcome. */
  datatype Reply = Reply(store: Store, status: Status)

  /** The note list: the notes the user owns. */
  function List(s: Store, u: UserId): (r: map<NoteId, Note>)
    ensures forall id :: id in r <==> id in s && s[id].owner == u
    ensures forall id :: id in r ==> r[id] == s[id]
  {
    map id | id in s && s[id].owner == u :: s[id]
  }

  datatype Lookup = Found(note: Note) | Missing

  /** Lookup by id and owner: found exactly when the id is in the user's list. */
  function Get(s: Store, u: UserId, id: NoteId): (r: Lookup)
    ensures r.Found? <==> id in List(s, u)
    ensures r.Found? ==> r.note == List(s, u)[id]
  {
    if id in s && s[id].owner == u then Found(s[id]) else Missing
  }

  /** Creating a note from submitted data: validate, stamp the owner, insert. */
  function Create(s: Store, u: UserId, data: Submission, now: Timestamp): (r: Reply)
    ensures r.status.Created? || r.status.Invalid?
    ensures r.status.Invalid? <==> !Valid(Field(data, TitleKey), Field(data, ContentKey))
    ensures r.status.Invalid? ==> r.store == s && r.status.errors == CleanNoteForm(data).errors
    ensures r.status.Created? ==>
      && r.status.id !in s
      && r.store.Keys == s.Keys + {r.status.id}
      && r.store[r.status.id] == Note(Field(data, TitleKey), Field(data, ContentKey), u, now, now)
      && forall id :: id in s ==> r.store[id] == s[id]
  {
    match CleanNoteForm(data)
    case Rejected(errors) => Reply(s, Invalid(errors))
    case Cleaned(title, content) =>
      var id := Ids.FreshId(s.Keys);
      Reply(s[id := Note(title, content, u, now, now)], Created(id))
  }

  /** Editing a note from submitted data: look it up by (id, owner) first, then
      validate, then save the new title and content with a fresh modification stamp. */
  function Edit(s: Store, u: UserId, id: NoteId, data: Submission, now: Timestamp): (r: Reply)
    ensures Get(s, u, id).Missing? ==> r == Reply(s, NotFound)
    ensures Get(s, u, id).Found? && !Valid(Field(data, TitleKey), Field(data, ContentKey)) ==>
      r == Reply(s, Invalid(CleanNoteForm(data).errors))
    ensures Get(s, u, id).Found? && Valid(Field(data, TitleKey), Field(data, ContentKey)) ==>
      && r.status == Updated
      && r.store.Keys == s.Keys
      && r.store[id].title == Field(data, TitleKey)
      && r.store[id].content == Field(data, ContentKey)
      && r.store[id].owner == s[id].owner
      && r.store[id].createdAt == s[id].createdAt
      && r.store[id].updatedAt == now
      && forall k :: k in s && k != id ==> r.store[k] == s[k]
  {
    match Get(s, u, id)
    case Missing => Reply(s, NotFound)
    case Found(note) =>
      match CleanNoteForm(data)
      case Rejected(errors) => Reply(s, Invalid(errors))
      case Cleaned(title, content) =>
        Reply(s[id := note.(title := title, content := content, updatedAt := now)], Updated)
  }

  /** Deleting a note: look it up by (id, owner), then remove exactly that id. */
  function Delete(s: Store, u: UserId, id: NoteId): (r: Reply)
    ensures Get(s, u, id).Missing? ==> r == Reply(s, NotFound)
    ensures Get(s, u, id).Found? ==>
      && r.status == Deleted
      && r.store.Keys == s.Keys - {id}
      && forall k :: k in r.store ==> r.store[k] == s[k]
  {
    match Get(s, u, id)
    case Missing => Reply(s, NotFound)
    case Found(_) => Reply(s - {id}, Deleted)
  }

  /** The notes of `notes` whose title contains `filter`, ignoring case. */
  function Matching(notes: map<NoteId, Note>, filter: string): (r: map<NoteId, Note>)
    ensures r.Keys <= notes.Keys
    ensures forall id :: id in r ==> r[id] == notes[id]
    ensures forall id :: id in notes ==> (id in r <==> ContainsIgnoreCase(notes[id].title, filter))
  {
    map id | id in notes && ContainsIgnoreCase(notes[id].title, filter) :: notes[id]
  }

  /** The search page: the filter echoed back and the notes shown. */
  datatype SearchPage = SearchPage(searchData: string, notes: map<NoteId, Note>)

  /** Searching: with a valid form, the user's notes whose title contains the
      filter; with an unbound or invalid form, the whole list. */
  function Search(s: Store, u: UserId, query: Submission): (r: SearchPage)
    ensures r.notes.Keys <= List(s, u).Keys
    ensures forall id :: id in r.notes ==> r.notes[id] == s[id]
    ensures CleanSearchForm(query).SearchCleaned? ==>
      && r.searchData == Field(query, TitleKey)
      && forall id :: id in r.notes <==>
           id in s && s[id].owner == u && ContainsIgnoreCase(s[id].title, Field(query, TitleKey))
    ensures !CleanSearchForm(query).SearchCleaned? ==> r == SearchPage("", List(s, u))
  {
    match CleanSearchForm(query)
    case SearchCleaned(title) => SearchPage(title, Matching(List(s, u), title))
    case _ => SearchPage("", List(s, u))
  }
}
